=== FILE: README.md ===
# Portfolio list logic in Dafny

A Dafny model of the list logic in a single-page portfolio website. Almost every
component of the site only renders markup. Three of them keep state that
decides which items are shown:

- **Paginated project grid** (`src/components/sections/ProjectsSection.tsx`).
  It shows three projects per page. The page count is `Math.ceil(n / 3)`.
  A `currentPage` index moves with guarded Next and Previous buttons. The
  visible page is `projects.slice(3 * page, 3 * (page + 1))`. A detail view
  opens for one selected project. This is module `Pagination`.
- **Category tabs** (`src/components/ProjectsSection.tsx`). The tab list is
  `"All"` followed by the distinct project categories, in the order a `Set`
  keeps them. An effect stores the projects of the active category whenever
  the category or the project list changes. This is module `CategoryFilter`,
  which compares lists by value. Module `RenderCycle` (`render_cycle.dfy`)
  models the same effect with array identities, as React compares them.
- **Skill tabs** (`src/components/sections/SkillsSection.tsx`). Five triggers
  set `activeTab` to `"all"`, `"backend"`, `"frontend"`, `"database"` or
  `"other"`. The grid shows the skills that pass a filter on it. This is module
  `SkillTabs`.

The JavaScript array operations these use are modelled once, in module
`JsArray` (`seqs.dfy`):

- `Slice` is `Array.prototype.slice`: negative indices count from the end, and
  out-of-range bounds are clamped rather than rejected.
- `Filter` is `Array.prototype.filter`.
- `Distinct` is the iteration order of `new Set(array)`: each element at its
  first appearance.

Each comes with a reference notion it is proved against: `IsSubsequence` with
multiset counts for `Filter`, and `FirstIndex` with `NoDuplicates` for `Distinct`.

React state hooks become immutable state records (`Pager`, `View`,
`SkillsView`). Event handlers become pure transition functions, and a `Run`
function folds a sequence of events. Only the record fields the logic reads are
kept: an id and title, and the category. Module `DefaultContent` checks the
general results against the default props the project components ship with.

Some behaviour of the code is worth knowing:

- The category tabs are free of repetitions exactly when no project is filed
  under the category `"All"`. If one is, `"All"` is offered twice, and both
  tabs show every project (`CategoryFilter.CategoriesDistinctUnlessAllIsUsed`).
- The `projects` prop of the category component defaults to an array literal.
  That literal is a new array on every render, and the filter effect compares
  its dependencies by identity. So once the component re-renders without the
  prop, each render schedules another one (see "## Findings").
- `nextPage` compares with `totalPages - 1`. On an empty list that is `-1`, so
  Next is a no-op there, as it should be (`Pagination.Next`).

## Model

| member | source | states |
|---|---|---|
| `Pagination.TotalPages` | src/components/sections/ProjectsSection.tsx:115-116 | the page count `r` is the ceiling of `count / 3`: `count <= 3r` and `3(r-1) < count` when `r > 0`; it is 0 exactly when the list is empty |
| `Pagination.Next` | src/components/sections/ProjectsSection.tsx:126-130 | the page grows by exactly one iff it is below `totalPages - 1`, and is unchanged otherwise; an empty list never moves; the selection is untouched; bounds are preserved |
| `Pagination.Prev` | src/components/sections/ProjectsSection.tsx:132-136 | the page drops by exactly one iff it is above 0; at page 0 the state is unchanged; the selection is untouched; bounds are preserved for every list length |
| `Pagination.NextPrevUndo` | src/components/sections/ProjectsSection.tsx:126-136 | within bounds, a Previous undoes a Next that moved, and a Next undoes a Previous that moved |
| `Pagination.ViewProject` | src/components/sections/ProjectsSection.tsx:118-120 | opening details selects exactly the given project and leaves the current page alone |
| `Pagination.CloseDetails` | src/components/sections/ProjectsSection.tsx:122-124 | closing details clears the selection and leaves the current page alone |
| `Pagination.ViewThenCloseRestores` | src/components/sections/ProjectsSection.tsx:113-124 | opening then closing the detail view returns to the state before |
| `Pagination.Step` | src/components/sections/ProjectsSection.tsx:118-136 | every handler keeps the page within bounds; the modal handlers never move the page; the page buttons never change the selection |
| `Pagination.RunStaysInRange` | src/components/sections/ProjectsSection.tsx:126-136 | any sequence of events from a state within bounds stays within `0 .. max(totalPages-1, 0)` |
| `Pagination.ReachableStatesInRange` | src/components/sections/ProjectsSection.tsx:113-136 | every state reachable from `useState(0)` / `useState(null)` has `0 <= currentPage <= max(totalPages-1, 0)` |
| `Pagination.DisplayedProjects` | src/components/sections/ProjectsSection.tsx:138-141 | the visible page holds at most 3 projects; it is non-empty for every page in range; its `i`-th entry is project `3*page + i` |
| `Pagination.PageIsClampedSlice` | src/components/sections/ProjectsSection.tsx:138-141 | page `k` is exactly `projects[min(3k, n)..min(3k+3, n)]` |
| `Pagination.PagesUpToIsPrefix` | src/components/sections/ProjectsSection.tsx:138-141 | pages `0 .. k-1` laid end to end are the first `min(3k, n)` projects |
| `Pagination.PagesReassembleList` | src/components/sections/ProjectsSection.tsx:115-141 | all `totalPages` pages concatenated reproduce the project list in order |
| `Pagination.ProjectOnExactlyOnePage` | src/components/sections/ProjectsSection.tsx:138-141 | the project at position `i` is on page `i / 3`, which exists, and falls in no other page's range |
| `Pagination.PaginationControls` | src/components/sections/ProjectsSection.tsx:179-201 | the pagination bar is drawn iff there is more than one page, and then reports the true page count |
| `Pagination.PageLabelInRange` | src/components/sections/ProjectsSection.tsx:189-191 | within bounds, the label "Page k of N" has `1 <= k <= N` |
| `Pagination.DisabledButtonsAreNoOps` | src/components/sections/ProjectsSection.tsx:181-199 | within bounds, Previous is disabled iff pressing it changes nothing, and likewise Next |
| `JsArray.RelativeIndex` | src/components/sections/ProjectsSection.tsx:138-141 | an argument of `slice` inside `0 .. len` is used as is; one past the end becomes `len`; a negative one counts back from the end, and one before the start becomes 0 |
| `JsArray.Slice` | src/components/sections/ProjectsSection.tsx:138-141 | for `0 <= start <= end` the slice is `s[min(start, n)..min(end, n)]`; it is never longer than the array or than `end - start`; it is non-empty when `start` is inside the array and `start < end`; its entries are the array's from `start` on |
| `JsArray.SliceNegativeIndices` | src/components/sections/ProjectsSection.tsx:138-141 | a negative bound `b` with `-n <= b` acts as `n + b`; a start before `-n` acts as 0; an end before `-n` gives the empty array |
| `JsArray.SliceAppend` | src/components/sections/ProjectsSection.tsx:138-141 | adjacent slices with non-negative bounds concatenate to the spanning slice, clamping included |
| `JsArray.Filter` | src/components/ProjectsSection.tsx:126 | the result is a subsequence of the input; each element occurs as often as in the input if it passes the test, else not at all |
| `JsArray.FilterIdempotent` | src/components/ProjectsSection.tsx:125-127 | filtering twice with the same test equals filtering once |
| `JsArray.FilterKeepingAll` | src/components/sections/SkillsSection.tsx:96-97 | a filter every element passes returns the array unchanged |
| `JsArray.Distinct` | src/components/ProjectsSection.tsx:117 | the set-built list has the same members as the input and no repetitions |
| `JsArray.DistinctFirstAppearanceOrder` | src/components/ProjectsSection.tsx:117 | elements of the set-built list are ordered by their first appearance in the input |
| `CategoryFilter.CategoryList` | src/components/ProjectsSection.tsx:117 | the mapped list has one entry per project, the category of the project at the same position |
| `CategoryFilter.Categories` | src/components/ProjectsSection.tsx:115-118 | the tab list starts with "All"; every project's category is in it; the entries after "All" are exactly the project categories, without repetitions |
| `CategoryFilter.CategoryOffered` | src/components/ProjectsSection.tsx:115-118 | a category other than "All" is offered iff some project has it |
| `CategoryFilter.CategoriesInFirstAppearanceOrder` | src/components/ProjectsSection.tsx:117 | tab `i` before tab `j` (both after "All") means the first project of category `i` comes before the first project of category `j` |
| `CategoryFilter.CategoriesDistinctUnlessAllIsUsed` | src/components/ProjectsSection.tsx:115-118 | the whole tab list is repetition-free iff no project's category is "All" |
| `CategoryFilter.FilterProjects` | src/components/ProjectsSection.tsx:122-127 | with "All" the list is unchanged; otherwise it is the order-preserving subsequence holding exactly the projects of that category, with their multiplicities |
| `CategoryFilter.FilterProjectsIdempotent` | src/components/ProjectsSection.tsx:125-127 | filtering the filtered list by the same category returns it unchanged |
| `CategoryFilter.OfferedTabIsNeverEmpty` | src/components/ProjectsSection.tsx:115-127 | on a non-empty project list, every offered tab shows at least one project |
| `CategoryFilter.InitialView` | src/components/ProjectsSection.tsx:110-111 | initially the active category is "All" and the displayed list is the full project list, which agrees with the filter |
| `CategoryFilter.RunFilterEffect` | src/components/ProjectsSection.tsx:120-129 | the effect changes only the stored list, which then agrees with the filter, shows everything under "All", and holds only current projects |
| `CategoryFilter.Step` | src/components/ProjectsSection.tsx:185-189 | a tab click sets the active category to the clicked one and keeps the projects; a new prop keeps the category; either way the list after the effect agrees with the filter (by construction; `RenderCycle.StableClickMatchesStep` and `RenderCycle.StableNewPropMatchesStep` check it against the identity-level model) |
| `CategoryFilter.RunFromConsistent` | src/components/ProjectsSection.tsx:120-129 | from a consistent view, any sequence of events leaves the displayed list equal to the filter of the current projects; this holds by construction, since each step ends with the effect |
| `CategoryFilter.RunKeepsConsistent` | src/components/ProjectsSection.tsx:110-129 | every view reachable from the initial one displays exactly the filter of its projects by its active category (by construction, as above) |
| `RenderCycle.Render` | src/components/ProjectsSection.tsx:26-108 | a render given the prop uses the parent's array; a render without it evaluates the default literal into a new array, whose identity no earlier array has |
| `RenderCycle.SetFiltered` | src/components/ProjectsSection.tsx:122-127 | `setFilteredProjects` schedules a re-render iff the new list is a different array from the stored one, and otherwise changes nothing |
| `RenderCycle.Effect` | src/components/ProjectsSection.tsx:120-129 | with both dependencies as at its last run the effect does nothing; otherwise it records them, and when it stores a different array it schedules a re-render and stores the filter of the projects by the category |
| `RenderCycle.Mount` | src/components/ProjectsSection.tsx:110-129 | the first render settles without a re-render, with "All" active and the full list stored |
| `RenderCycle.Click` | src/components/ProjectsSection.tsx:185-189 | a click re-renders iff it changes the category, and the render it schedules still holds the previous category's list |
| `RenderCycle.DefaultedPropAlwaysRerenders` | src/components/ProjectsSection.tsx:26-129 | without the prop, every render cycle after the first schedules another one |
| `RenderCycle.DefaultedPropNeverSettles` | src/components/ProjectsSection.tsx:26-129 | without the prop, no number of render cycles reaches a state that stops re-rendering |
| `RenderCycle.ClickWithDefaultedPropLoops` | src/components/ProjectsSection.tsx:110-129 | mounted by a parent that omits the prop, the component settles, but a click on any tab other than "All" starts render cycles that never stop |
| `RenderCycle.StablePropSettles` | src/components/ProjectsSection.tsx:120-129 | with an array of stable identity, one render cycle stores the filter of the projects by the active category, and the next cycle changes nothing and schedules nothing |
| `RenderCycle.StableClickMatchesStep` | src/components/ProjectsSection.tsx:120-129 | with a stable array, a click followed by one render cycle shows the view `CategoryFilter.Step` gives for the click |
| `RenderCycle.StableNewPropMatchesStep` | src/components/ProjectsSection.tsx:120-129 | with a new stable array, one render cycle shows the view `CategoryFilter.Step` gives for the new prop |
| `SkillTabs.TabValue` | src/components/sections/SkillsSection.tsx:129-163 | only the "All" trigger stores the value "all" |
| `SkillTabs.TabValueInjective` | src/components/sections/SkillsSection.tsx:129-163 | the five triggers store five different values |
| `SkillTabs.ShowsSkill` | src/components/sections/SkillsSection.tsx:96-99 | for the value a trigger stores, a skill passes the test iff that trigger is "All" or the skill's own category trigger |
| `SkillTabs.FilteredSkills` | src/components/sections/SkillsSection.tsx:96-99 | the result is an order-preserving subsequence of the skills, never longer; "all" returns the list unchanged; any other tab keeps exactly the skills whose category string equals it, with their multiplicities |
| `SkillTabs.CategoryTabShowsItsSkills` | src/components/sections/SkillsSection.tsx:96-99 | a category trigger's tab shows exactly the skills of that category, each as often as in the list |
| `SkillTabs.UnknownTabShowsNothing` | src/components/sections/SkillsSection.tsx:96-99 | a tab value that no trigger stores shows no skill |
| `SkillTabs.CategoryTabsPartitionSkills` | src/components/sections/SkillsSection.tsx:96-99 | since the category is one of the four values of line 12, the four category tabs together show every skill exactly once (as multisets) |
| `SkillTabs.InitialSkillsView` | src/components/sections/SkillsSection.tsx:94-97 | initially `activeTab` is "all" and every skill is shown |
| `SkillTabs.ClickTab` | src/components/sections/SkillsSection.tsx:129-163 | a click stores the trigger's value and leaves the skills alone; the "All" trigger shows every skill |
| `DefaultContent.DefaultDistinctCategories` | src/components/ProjectsSection.tsx:29-108 | the default categories Web, Web, Web, Mobile, AI/ML, Web collapse to Web, Mobile, AI/ML |
| `DefaultContent.DefaultCategoryTabs` | src/components/ProjectsSection.tsx:115-118 | the default tab list is All, Web, Mobile, AI/ML |
| `DefaultContent.DefaultMobileTab` | src/components/ProjectsSection.tsx:124-127 | the Mobile tab of the default projects shows just the fitness tracker |
| `DefaultContent.DefaultSinglePage` | src/components/sections/ProjectsSection.tsx:30-116 | the three default projects fill one page: the bar is hidden, Next does nothing, and page 0 shows all three |

## Left out

- Contact form: the form in `src/components/sections/ContactSection.tsx` has no state, no validation and no submit handler, and the contact form is outside this model. `src/components/ContactSection.tsx`, the one `home.tsx` renders, is not part of this model.
- Presentational components: the About, Hero, ProjectCard, ProjectModal, Footer, SeoHead and home components, and `src/components/SkillsSection.tsx`, hold only presentation state (hover flags, animation triggers) and no list logic.
- Browser effects are left out because they touch the DOM, not list state. These are the scroll listeners in `Navbar.tsx`, `layout/Header.tsx` and `layout/Footer.tsx`, the `IntersectionObserver` visibility flag in `ProjectsSection.tsx`, smooth scrolling, and theme-class toggling.
- Floating-point scroll progress and spring animation in `home.tsx`, framer-motion variants and Tailwind classes: presentation only.
- `Pagination.TotalPages` computes `Math.ceil(n / 3)` on naturals as `(n + 2) / 3`. The quotient `n / 3` is rounded to a double, but for every `n < 3 * 2^52` the rounded quotient is exact when 3 divides `n` and otherwise stays strictly between the same two integers, so `Math.ceil` of it is the integer ceiling. Longer lists, where the two differ, are not modelled.
- `Pagination.RunStaysInRange` fixes the project list for the whole event sequence. If the `projects` prop shrinks, the component keeps a stale `currentPage` and the page can leave the range. The model allows that state, but the bound is not claimed for it.
- `Pagination.Step`: each event sees the state of the latest render. Two clicks handled by the same stale closure (both computing `currentPage + 1` from one render) are not modelled.
- `CategoryFilter.Step` compares lists by value and runs the effect exactly once per event. It leaves out the render committed between `setActiveCategory` and the effect, which still shows the previous list, and the endless re-rendering when the prop is omitted. Both are modelled in `RenderCycle`; `CategoryFilter.Step` is the behaviour with a stable `projects` array.
- `RenderCycle` models the filter effect and the two hooks it touches. The `isVisible` hook and its observer are left out; the re-render they cause is one more `RenderCycle.Cycle`. Several clicks batched into one render are not modelled.
- `JsArray.RelativeIndex`: `slice` also converts non-integer and missing arguments. Only integer arguments occur in the component, so only those are modelled.
- The rendered markup of each tab panel (every `TabsContent` in `sections/SkillsSection.tsx` renders the same `filteredSkills`), React keys and animation delays are not modelled.
- Project and skill records keep only the fields the logic reads: id, title or name, level, category. Images, tags, URLs, descriptions and icons are dropped.

## Findings

| source | as written | input that shows it | evidently intended | confidence | as-written member | corrected member |
|---|---|---|---|---|---|---|
| src/components/ProjectsSection.tsx:29-129 | the default `projects = [...]` is a new array on every render that omits the prop; the filter effect depends on it by identity and then stores a new array, so every render schedules the next | any parent rendering `<ProjectsSection />` without a `projects` prop (`home.tsx` lines 54-56 hold such a call, commented out), followed by a click on the "Web" tab (any later re-render, such as the one `setIsVisible(true)` causes, does the same) | the effect runs once per change of the category or the project list, and the component then stops re-rendering | not executed; follows from React's identity comparison of effect dependencies and state | `RenderCycle.ClickWithDefaultedPropLoops` | `RenderCycle.StablePropSettles` |

The corrected behaviour keeps the `projects` array stable across renders, for
example by hoisting the default list out of the parameter list.
`RenderCycle.StableClickMatchesStep` and `RenderCycle.StableNewPropMatchesStep`
show that it is the behaviour `CategoryFilter.Step`, and with it the rest of
module `CategoryFilter`, describes.

=== FILE: category_filter.dfy ===
/**
 The category tabs of `src/components/ProjectsSection.tsx`: the tab list is
 "All" followed by the project categories in the order a `Set` keeps them,
 and an effect recomputes the visible projects whenever the active category
 or the project list changes.
 */
module CategoryFilter {
  import opened JsArray

  /** The fields of a project the filter logic reads; the rest is only rendered. */
  datatype Project = Project(id: string, title: string, category: string)

  /**
   The component's state together with its `projects` prop: the active
   category and the list the filter effect last stored.
   */
  datatype View = View(projects: seq<Project>, activeCategory: string, filteredProjects: seq<Project>)

  /** What can change the view: a click on a category tab, or a new `projects` prop. */
  datatype Event = SelectCategory(category: string) | ReceiveProjects(projects: seq<Project>)

  /** The tab that stands for "no filter". */
  const AllCategory: string := "All"

  /** `projects.map((project) => project.category)`. */
  function CategoryList(projects: seq<Project>): (r: seq<string>)
    ensures |r| == |projects|
    ensures forall i :: 0 <= i < |r| ==> r[i] == projects[i].category
  {
    seq(|projects|, i requires 0 <= i < |projects| => projects[i].category)
  }

  /** `categories`: "All", then every distinct project category. */
  function Categories(projects: seq<Project>): (r: seq<string>)
    ensures |r| >= 1 && r[0] == AllCategory
    ensures forall p :: p in projects ==> p.category in r
    ensures forall c :: c in r[1..] <==> c in CategoryList(projects)
    ensures NoDuplicates(r[1..])
  {
    var r := [AllCategory] + Distinct(CategoryList(projects));
    assert forall p :: p in projects ==> p.category in CategoryList(projects);
    assert r[1..] == Distinct(CategoryList(projects));
    r
  }

  /** A category tab is offered exactly when some project has that category. */
  lemma CategoryOffered(projects: seq<Project>, c: string)
    requires c != AllCategory
    ensures c in Categories(projects) <==> exists p :: p in projects && p.category == c
  {
    var cats := CategoryList(projects);
    if c in Categories(projects) {
      assert c in Categories(projects)[1..];
      var i :| 0 <= i < |cats| && cats[i] == c;
      assert projects[i] in projects;
    }
  }

  /** The tabs after "All" follow the first appearance of each category in the project list. */
  lemma CategoriesInFirstAppearanceOrder(projects: seq<Project>, i: int, j: int)
    requires 1 <= i < j < |Categories(projects)|
    ensures FirstIndex(CategoryList(projects), Categories(projects)[i])
          < FirstIndex(CategoryList(projects), Categories(projects)[j])
  {
    TailInFirstAppearanceOrder(AllCategory, CategoryList(projects), i, j);
  }

  /** The ordering argument for a list made of one head followed by `Distinct(names)`. */
  lemma TailInFirstAppearanceOrder<T(!new)>(head: T, names: seq<T>, i: int, j: int)
    requires 1 <= i < j < 1 + |Distinct(names)|
    ensures ([head] + Distinct(names))[i] == Distinct(names)[i - 1]
    ensures ([head] + Distinct(names))[j] == Distinct(names)[j - 1]
    ensures FirstIndex(names, Distinct(names)[i - 1]) < FirstIndex(names, Distinct(names)[j - 1])
  {
    DistinctFirstAppearanceOrder(names, i - 1, j - 1);
  }

  /**
   The whole tab list is free of repetitions exactly when no project is itself
   filed under "All"; otherwise "All" is offered twice.
   */
  lemma CategoriesDistinctUnlessAllIsUsed(projects: seq<Project>)
    ensures NoDuplicates(Categories(projects)) <==> forall p :: p in projects ==> p.category != AllCategory
  {
    var cats := Categories(projects);
    if exists p :: p in projects && p.category == AllCategory {
      var p :| p in projects && p.category == AllCategory;
      assert AllCategory in cats[1..];
      var k :| 0 <= k < |cats[1..]| && cats[1..][k] == AllCategory;
      assert cats[0] == cats[k + 1];
    } else {
      forall i, j | 0 <= i < j < |cats|
        ensures cats[i] != cats[j]
      {
        if i == 0 {
          assert cats[j] in cats[1..];
          var x := cats[j];
          assert x in CategoryList(projects);
          var m :| 0 <= m < |projects| && CategoryList(projects)[m] == x;
          assert projects[m] in projects;
        } else {
          assert cats[i] == cats[1..][i - 1] && cats[j] == cats[1..][j - 1];
        }
      }
    }
  }

  /** The filter the effect applies: everything for "All", else the projects of that category. */
  function FilterProjects(projects: seq<Project>, active: string): (r: seq<Project>)
    ensures active == AllCategory ==> r == projects
    ensures active != AllCategory ==> forall p :: p in r <==> p in projects && p.category == active
    ensures active != AllCategory ==>
              forall p :: multiset(r)[p] == if p.category == active then multiset(projects)[p] else 0
    ensures IsSubsequence(r, projects)
  {
    if active == AllCategory then
      assert IsSubsequence(projects, projects) by { SubsequenceOfItself(projects); }
      projects
    else Filter(projects, (p: Project) => p.category == active)
  }

  /** Re-filtering the filtered list by the same category leaves it unchanged. */
  lemma FilterProjectsIdempotent(projects: seq<Project>, active: string)
    ensures FilterProjects(FilterProjects(projects, active), active) == FilterProjects(projects, active)
  {
    if active != AllCategory {
      FilterIdempotent(projects, (p: Project) => p.category == active);
    }
  }

  /** Every tab the component offers shows at least one project, except "All" on an empty list. */
  lemma OfferedTabIsNeverEmpty(projects: seq<Project>, c: string)
    requires c in Categories(projects)
    requires |projects| > 0
    ensures |FilterProjects(projects, c)| > 0
  {
    if c != AllCategory {
      CategoryOffered(projects, c);
      var p :| p in projects && p.category == c;
      assert p in FilterProjects(projects, c);
    }
  }

  /** The displayed list agrees with the active category and the current projects. */
  predicate Consistent(v: View) {
    v.filteredProjects == FilterProjects(v.projects, v.activeCategory)
  }

  /** `useState("All")` and `useState(projects)`. */
  function InitialView(projects: seq<Project>): (r: View)
    ensures r.activeCategory == AllCategory
    ensures r.filteredProjects == projects
    ensures Consistent(r)
  {
    View(projects, AllCategory, projects)
  }

  /** The effect on `[activeCategory, projects]`: store the filtered list. */
  function RunFilterEffect(v: View): (r: View)
    ensures r.projects == v.projects && r.activeCategory == v.activeCategory
    ensures r.activeCategory == AllCategory ==> r.filteredProjects == r.projects
    ensures forall p :: p in r.filteredProjects ==> p in r.projects
    ensures Consistent(r)
  {
    v.(filteredProjects := FilterProjects(v.projects, v.activeCategory))
  }

  /**
   One event followed by the filter effect, compared by value: the view after
   the effect, leaving out the render committed in between with the previous
   list. `RenderCycle` models the two steps separately with array identities,
   and proves that with a stable `projects` array they reach this view.
   */
  function Step(v: View, e: Event): (r: View)
    ensures e.SelectCategory? ==> r.activeCategory == e.category && r.projects == v.projects
    ensures e.ReceiveProjects? ==> r.activeCategory == v.activeCategory && r.projects == e.projects
    ensures Consistent(r)
  {
    match e
    case SelectCategory(c) => RunFilterEffect(v.(activeCategory := c))
    case ReceiveProjects(ps) => RunFilterEffect(v.(projects := ps))
  }

  /** The view after `events`, in order. */
  function Run(v: View, events: seq<Event>): View
    decreases |events|
  {
    if |events| == 0 then v else Run(Step(v, events[0]), events[1..])
  }

  /** After any sequence of events the displayed list is the filter of the current projects (by construction, as for `RunFromConsistent`). */
  lemma {:induction false} RunKeepsConsistent(projects: seq<Project>, events: seq<Event>)
    ensures Consistent(Run(InitialView(projects), events))
  {
    RunFromConsistent(InitialView(projects), events);
  }

  /**
   Events preserve consistency. The effect assigns exactly the list
   `Consistent` asks for, so this holds by construction of `Step`; that one
   effect run suffices is what `RenderCycle.StablePropSettles` shows.
   */
  lemma {:induction false} RunFromConsistent(v: View, events: seq<Event>)
    requires Consistent(v)
    ensures Consistent(Run(v, events))
    decreases |events|
  {
    if |events| > 0 {
      RunFromConsistent(Step(v, events[0]), events[1..]);
    }
  }
}

=== FILE: default_content.dfy ===
/**
 The default `projects` props of the two project components, used as
 concrete witnesses for the general properties: the six categorised
 projects and the three paginated ones.
 */
module DefaultContent {
  import JsArray
  import CategoryFilter
  import Pagination

  /** The six default projects, with the fields the filter reads. */
  const DefaultCategorised: seq<CategoryFilter.Project> := [
    CategoryFilter.Project("project-1", "E-Commerce Platform", "Web"),
    CategoryFilter.Project("project-2", "Task Management App", "Web"),
    CategoryFilter.Project("project-3", "Weather Dashboard", "Web"),
    CategoryFilter.Project("project-4", "Mobile Fitness Tracker", "Mobile"),
    CategoryFilter.Project("project-5", "AI Image Generator", "AI/ML"),
    CategoryFilter.Project("project-6", "Portfolio Website", "Web")
  ]

  /** A run of one repeated element collapses to that element. */
  lemma DistinctOfRepeatedThree<T(!new)>(web: T)
    ensures JsArray.Distinct([web, web, web]) == [web]
  {
    var s0: seq<T> := [];
    JsArray.DistinctSnocNew(s0, web);
    assert s0 + [web] == [web];
    JsArray.DistinctSnocSeen([web], web);
    assert [web] + [web] == [web, web];
    JsArray.DistinctSnocSeen([web, web], web);
    assert [web, web] + [web] == [web, web, web];
  }

  /** Three distinct categories listed as the default projects list them collapse to one of each. */
  lemma DistinctOfDefaultPattern<T(!new)>(web: T, mobile: T, ai: T)
    requires web != mobile && web != ai && mobile != ai
    ensures JsArray.Distinct([web, web, web, mobile, ai, web]) == [web, mobile, ai]
  {
    var s3 := [web, web, web];
    DistinctOfRepeatedThree(web);
    var s4 := s3 + [mobile];
    JsArray.DistinctSnocNew(s3, mobile);
    var s5 := s4 + [ai];
    assert ai !in s4 by { assert s4 == [web, web, web, mobile]; }
    JsArray.DistinctSnocNew(s4, ai);
    assert s5[0] == web;
    JsArray.DistinctSnocSeen(s5, web);
    assert s5 + [web] == [web, web, web, mobile, ai, web];
  }

  /** The default project categories collapse to "Web", "Mobile", "AI/ML". */
  lemma DefaultDistinctCategories()
    ensures JsArray.Distinct(["Web", "Web", "Web", "Mobile", "AI/ML", "Web"]) == ["Web", "Mobile", "AI/ML"]
  {
    var web, mobile, ai := "Web", "Mobile", "AI/ML";
    assert web[0] != mobile[0] && web[0] != ai[0] && mobile[0] != ai[0];
    DistinctOfDefaultPattern(web, mobile, ai);
  }

  /** The category of each default project, in list order. */
  lemma DefaultCategoryList()
    ensures CategoryFilter.CategoryList(DefaultCategorised) == ["Web", "Web", "Web", "Mobile", "AI/ML", "Web"]
  {
  }

  /** The default tabs are "All", "Web", "Mobile", "AI/ML". */
  lemma DefaultCategoryTabs()
    ensures CategoryFilter.Categories(DefaultCategorised) == ["All", "Web", "Mobile", "AI/ML"]
  {
    var names := CategoryFilter.CategoryList(DefaultCategorised);
    assert CategoryFilter.Categories(DefaultCategorised) == [CategoryFilter.AllCategory] + JsArray.Distinct(names);
    DefaultCategoryList();
    DefaultDistinctCategories();
  }

  /** The "Mobile" tab shows the one mobile project. */
  lemma DefaultMobileTab()
    ensures CategoryFilter.FilterProjects(DefaultCategorised, "Mobile") == [DefaultCategorised[3]]
  {
    var mobile := CategoryFilter.FilterProjects(DefaultCategorised, "Mobile");
    assert multiset(DefaultCategorised)[DefaultCategorised[3]] == 1;
    assert |mobile| == 1 by {
      assert multiset(mobile)[DefaultCategorised[3]] == 1;
      assert forall p :: p in mobile ==> p == DefaultCategorised[3];
    }
  }

  /** The three default projects of the paginated grid. */
  const DefaultPaginated: seq<Pagination.Project> := [
    Pagination.Project("1", "RESTful API Service"),
    Pagination.Project("2", "Database Migration System"),
    Pagination.Project("3", "Microservice Architecture")
  ]

  /** Three projects fill one page: the bar is hidden and Next does nothing. */
  lemma DefaultSinglePage()
    ensures Pagination.TotalPages(|DefaultPaginated|) == 1
    ensures Pagination.PaginationControls(Pagination.InitialPager, DefaultPaginated) == Pagination.Hidden
    ensures Pagination.Next(Pagination.InitialPager, DefaultPaginated) == Pagination.InitialPager
    ensures Pagination.DisplayedProjects(DefaultPaginated, 0) == DefaultPaginated
  {
  }
}

=== FILE: pagination.dfy ===
/**
 The paginated project grid of `src/components/sections/ProjectsSection.tsx`:
 three projects per page, a current-page index moved by guarded Next and
 Previous buttons, the visible page cut out of the project list with
 `slice`, and a detail view opened for one selected project.
 */
module Pagination {
  import opened JsArray

  /** The fields of a project the grid logic reads; the rest is only rendered. */
  datatype Project = Project(id: string, title: string)

  /** The project whose detail view is open, or none (`null` in the component). */
  datatype Selection = NoSelection | Selected(project: Project)

  /** The component's state: `currentPage` and `selectedProject`. */
  datatype Pager = Pager(currentPage: int, selection: Selection)

  /** The user actions the component handles. */
  datatype Event = NextPage | PrevPage | ViewDetails(project: Project) | CloseModal

  /** What the pagination bar shows: nothing, or "Page k of N" between two buttons. */
  datatype Controls =
    | Hidden
    | Shown(pageLabel: int, pageCount: nat, prevDisabled: bool, nextDisabled: bool)

  const ProjectsPerPage: nat := 3

  /** Both state hooks start out as `useState(0)` and `useState(null)`. */
  const InitialPager: Pager := Pager(0, NoSelection)

  /** `Math.ceil(count / projectsPerPage)`, computed on naturals. */
  function TotalPages(count: nat): (r: nat)
    ensures count <= ProjectsPerPage * r
    ensures r > 0 ==> ProjectsPerPage * (r - 1) < count
    ensures r == 0 <==> count == 0
  {
    (count + ProjectsPerPage - 1) / ProjectsPerPage
  }

  /** The index of the last page, or 0 when there are no pages at all. */
  function LastPage(count: nat): nat {
    if TotalPages(count) == 0 then 0 else TotalPages(count) - 1
  }

  /** The bounds every reachable state keeps: `0 <= currentPage <= max(totalPages - 1, 0)`. */
  predicate InRange(st: Pager, count: nat) {
    0 <= st.currentPage <= LastPage(count)
  }

  /** `nextPage`: move forward one page unless already on (or past) the last one. */
  function Next(st: Pager, projects: seq<Project>): (r: Pager)
    ensures r.selection == st.selection
    ensures r.currentPage == st.currentPage + 1 <==> st.currentPage < TotalPages(|projects|) - 1
    ensures r.currentPage == st.currentPage <==> st.currentPage >= TotalPages(|projects|) - 1
    ensures |projects| == 0 && 0 <= st.currentPage ==> r == st
    ensures InRange(st, |projects|) ==> InRange(r, |projects|)
  {
    if st.currentPage < TotalPages(|projects|) - 1 then st.(currentPage := st.currentPage + 1)
    else st
  }

  /** `prevPage`: move back one page unless already on the first one. */
  function Prev(st: Pager): (r: Pager)
    ensures r.selection == st.selection
    ensures r.currentPage == st.currentPage - 1 <==> st.currentPage > 0
    ensures r == st <==> st.currentPage <= 0
    ensures forall count: nat :: InRange(st, count) ==> InRange(r, count)
  {
    if st.currentPage > 0 then st.(currentPage := st.currentPage - 1) else st
  }

  /** Next and Previous undo each other whenever the first of the two moved the page. */
  lemma NextPrevUndo(st: Pager, projects: seq<Project>)
    requires InRange(st, |projects|)
    ensures Next(st, projects) != st ==> Prev(Next(st, projects)) == st
    ensures Prev(st) != st ==> Next(Prev(st), projects) == st
  {
  }

  /** `handleViewDetails`: open the detail view of `p`; the page stays where it is. */
  function ViewProject(st: Pager, p: Project): (r: Pager)
    ensures r.selection.Selected? && r.selection.project == p
    ensures r.currentPage == st.currentPage
  {
    st.(selection := Selected(p))
  }

  /** `handleCloseModal`: close the detail view; the page stays where it is. */
  function CloseDetails(st: Pager): (r: Pager)
    ensures r.selection == NoSelection
    ensures r.currentPage == st.currentPage
  {
    st.(selection := NoSelection)
  }

  /** Closing the detail view right after opening it restores the state before. */
  lemma ViewThenCloseRestores(st: Pager, p: Project)
    requires st.selection == NoSelection
    ensures CloseDetails(ViewProject(st, p)) == st
  {
  }

  /** The component's reaction to one event. */
  function Step(st: Pager, projects: seq<Project>, e: Event): (r: Pager)
    ensures InRange(st, |projects|) ==> InRange(r, |projects|)
    ensures e.ViewDetails? || e == CloseModal ==> r.currentPage == st.currentPage
    ensures e == NextPage || e == PrevPage ==> r.selection == st.selection
  {
    match e
    case NextPage => Next(st, projects)
    case PrevPage => Prev(st)
    case ViewDetails(p) => ViewProject(st, p)
    case CloseModal => CloseDetails(st)
  }

  /** The state after handling `events` in order, starting from `st`. */
  function Run(st: Pager, projects: seq<Project>, events: seq<Event>): Pager
    decreases |events|
  {
    if |events| == 0 then st
    else Run(Step(st, projects, events[0]), projects, events[1..])
  }

  /** Any sequence of events keeps the current page within bounds. */
  lemma {:induction false} RunStaysInRange(st: Pager, projects: seq<Project>, events: seq<Event>)
    requires InRange(st, |projects|)
    ensures InRange(Run(st, projects, events), |projects|)
    decreases |events|
  {
    if |events| > 0 {
      RunStaysInRange(Step(st, projects, events[0]), projects, events[1..]);
    }
  }

  /** In particular every state reachable from the initial one is within bounds. */
  lemma ReachableStatesInRange(projects: seq<Project>, events: seq<Event>)
    ensures 0 <= Run(InitialPager, projects, events).currentPage
    ensures Run(InitialPager, projects, events).currentPage <= LastPage(|projects|)
  {
    RunStaysInRange(InitialPager, projects, events);
  }

  /** `displayedProjects`: the slice of the list shown on page `currentPage`. */
  function DisplayedProjects(projects: seq<Project>, currentPage: int): (r: seq<Project>)
    ensures |r| <= ProjectsPerPage
    ensures 0 <= currentPage < TotalPages(|projects|) ==> |r| > 0
    ensures 0 <= currentPage ==> forall i :: 0 <= i < |r| ==> ProjectsPerPage * currentPage + i < |projects| && r[i] == projects[ProjectsPerPage * currentPage + i]
  {
    Slice(projects, currentPage * ProjectsPerPage, (currentPage + 1) * ProjectsPerPage)
  }

  /** The pages `0 .. k - 1` laid end to end. */
  function PagesUpTo(projects: seq<Project>, k: nat): seq<Project> {
    if k == 0 then [] else PagesUpTo(projects, k - 1) + DisplayedProjects(projects, k - 1)
  }

  /** Page `k` is the stretch of the list between positions `3k` and `3k + 3`, both cut at its end. */
  lemma PageIsClampedSlice(projects: seq<Project>, k: nat)
    ensures AtMost(ProjectsPerPage * k, |projects|) <= AtMost(ProjectsPerPage * k + ProjectsPerPage, |projects|)
    ensures DisplayedProjects(projects, k)
         == projects[AtMost(ProjectsPerPage * k, |projects|)..AtMost(ProjectsPerPage * k + ProjectsPerPage, |projects|)]
  {
    assert DisplayedProjects(projects, k) == Slice(projects, ProjectsPerPage * k, ProjectsPerPage * k + ProjectsPerPage);
  }

  /** The first `k` pages together are the first `3k` projects (or all of them). */
  lemma {:induction false} PagesUpToIsPrefix(projects: seq<Project>, k: nat)
    ensures PagesUpTo(projects, k) == projects[..AtMost(ProjectsPerPage * k, |projects|)]
  {
    if k > 0 {
      PagesUpToIsPrefix(projects, k - 1);
      PageIsClampedSlice(projects, k - 1);
      var lo := AtMost(ProjectsPerPage * (k - 1), |projects|);
      var hi := AtMost(ProjectsPerPage * (k - 1) + ProjectsPerPage, |projects|);
      assert hi == AtMost(ProjectsPerPage * k, |projects|);
      assert projects[..lo] + projects[lo..hi] == projects[..hi];
    }
  }

  /** All pages, in order, put the project list back together. */
  lemma PagesReassembleList(projects: seq<Project>)
    ensures PagesUpTo(projects, TotalPages(|projects|)) == projects
  {
    PagesUpToIsPrefix(projects, TotalPages(|projects|));
  }

  /** The project at position `i` is shown on page `i / 3` and on no other page. */
  lemma ProjectOnExactlyOnePage(projects: seq<Project>, i: int, k: int)
    requires 0 <= i < |projects|
    requires 0 <= k
    ensures i / ProjectsPerPage < TotalPages(|projects|)
    ensures 0 <= i - ProjectsPerPage * k < |DisplayedProjects(projects, k)| <==> k == i / ProjectsPerPage
    ensures k == i / ProjectsPerPage ==> DisplayedProjects(projects, k)[i - ProjectsPerPage * k] == projects[i]
  {
    var page := DisplayedProjects(projects, k);
    if k == i / ProjectsPerPage {
      assert Slice(projects, ProjectsPerPage * k, ProjectsPerPage * k + ProjectsPerPage) == page;
      assert ProjectsPerPage * k <= i < ProjectsPerPage * k + ProjectsPerPage;
    }
  }

  /** The pagination bar: only drawn when there is more than one page. */
  function PaginationControls(st: Pager, projects: seq<Project>): (r: Controls)
    ensures r.Shown? <==> TotalPages(|projects|) > 1
    ensures r.Shown? ==> r.pageCount == TotalPages(|projects|)
    ensures r.Shown? ==> r.pageLabel == st.currentPage + 1
  {
    var total := TotalPages(|projects|);
    if total > 1 then
      Shown(st.currentPage + 1, total, st.currentPage == 0, st.currentPage == total - 1)
    else Hidden
  }

  /** In a state within bounds the label "Page k of N" has `1 <= k <= N`. */
  lemma PageLabelInRange(st: Pager, projects: seq<Project>)
    requires InRange(st, |projects|)
    ensures PaginationControls(st, projects).Shown? ==>
              1 <= PaginationControls(st, projects).pageLabel <= PaginationControls(st, projects).pageCount
  {
  }

  /** A button is disabled exactly when pressing it would change nothing. */
  lemma DisabledButtonsAreNoOps(st: Pager, projects: seq<Project>)
    requires InRange(st, |projects|)
    requires PaginationControls(st, projects).Shown?
    ensures PaginationControls(st, projects).prevDisabled <==> Prev(st) == st
    ensures PaginationControls(st, projects).nextDisabled <==> Next(st, projects) == st
  {
  }
}

=== FILE: render_cycle.dfy ===
/**
 The filter effect of `src/components/ProjectsSection.tsx` at the level React
 runs it: arrays carry an identity, the effect's dependencies and the
 `useState` bail-out compare by identity (`Object.is`), and a render is
 committed before the effect that follows it.

 The `projects` prop has a default value, an array literal in the parameter
 list, which is evaluated afresh on every render that omits the prop. Then
 every render after the first one hands the effect a new array, the effect
 stores a new array, and that schedules the next render: the component never
 settles. With an array whose identity is stable across renders, one effect
 run reaches a fixed point whose list is the one `CategoryFilter.Step` gives.
 */
module RenderCycle {
  import opened CategoryFilter

  /** An array value together with its identity. */
  datatype ArrayRef = ArrayRef(ref: nat, items: seq<Project>)

  /** Where a render takes `projects` from: an array the parent holds, or the default evaluated afresh. */
  datatype PropSource = Passed(parent: ArrayRef) | Defaulted(items: seq<Project>)

  /** The dependencies `[activeCategory, projects]` the filter effect last ran with. */
  datatype Deps = NotYetRun | Deps(category: string, projectsRef: nat)

  /**
   The component between renders: its `activeCategory` and `filteredProjects`
   hooks, the effect's last dependencies, and the first identity no array has yet.
   */
  datatype Hooks = Hooks(activeCategory: string, filtered: ArrayRef, lastDeps: Deps, nextRef: nat)

  /** The outcome of a state update: the new hooks, and whether React schedules another render. */
  datatype Commit = Commit(hooks: Hooks, rerender: bool)

  /** A committed render: the hooks as rendered and the `projects` array the render saw. */
  datatype Rendered = Rendered(hooks: Hooks, projects: ArrayRef)

  /** Every identity in the hooks was handed out before `nextRef`. */
  predicate WellFormed(h: Hooks) {
    && h.filtered.ref < h.nextRef
    && (h.lastDeps.Deps? ==> h.lastDeps.projectsRef < h.nextRef)
  }

  /** `a` is an array that already exists, and if the stored list is the same array it has the same items. */
  predicate Existing(h: Hooks, a: ArrayRef) {
    && a.ref < h.nextRef
    && (h.filtered.ref == a.ref ==> h.filtered.items == a.items)
  }

  /** Once the effect has run for the current dependencies, the stored list is the filter of `a`. */
  predicate Agrees(h: Hooks, a: ArrayRef) {
    h.lastDeps == Deps(h.activeCategory, a.ref) ==> h.filtered.items == FilterProjects(a.items, h.activeCategory)
  }

  /** No click is waiting for its render: the effect last ran, if at all, with the current category. */
  predicate NoPendingClick(h: Hooks) {
    h.lastDeps.Deps? ==> h.lastDeps.category == h.activeCategory
  }

  /** Evaluating the `projects` parameter: the default literal allocates a new array. */
  function Render(h: Hooks, src: PropSource): (r: Rendered)
    ensures r.hooks.activeCategory == h.activeCategory && r.hooks.filtered == h.filtered
    ensures r.hooks.lastDeps == h.lastDeps
    ensures src.Passed? ==> r.projects == src.parent && r.hooks.nextRef == h.nextRef
    ensures src.Defaulted? ==> r.projects.items == src.items && r.projects.ref == h.nextRef < r.hooks.nextRef
  {
    match src
    case Passed(a) => Rendered(h, a)
    case Defaulted(items) => Rendered(h.(nextRef := h.nextRef + 1), ArrayRef(h.nextRef, items))
  }

  /** `setFilteredProjects(next)`: React skips the update when `next` is the array already stored. */
  function SetFiltered(h: Hooks, next: ArrayRef): (r: Commit)
    ensures r.rerender <==> next.ref != h.filtered.ref
    ensures r.hooks.filtered == (if r.rerender then next else h.filtered)
    ensures r.hooks.activeCategory == h.activeCategory && r.hooks.lastDeps == h.lastDeps
    ensures r.hooks.nextRef == h.nextRef
  {
    if next.ref == h.filtered.ref then Commit(h, false) else Commit(h.(filtered := next), true)
  }

  /**
   The effect on `[activeCategory, projects]` after a commit: skipped when both
   dependencies are the ones it last ran with; otherwise it stores `projects`
   itself under "All" and a new array from `filter` under any other category.
   */
  function Effect(r: Rendered): (c: Commit)
    ensures c.hooks.activeCategory == r.hooks.activeCategory
    ensures c.hooks.lastDeps == Deps(r.hooks.activeCategory, r.projects.ref)
    ensures r.hooks.lastDeps == Deps(r.hooks.activeCategory, r.projects.ref) ==> c == Commit(r.hooks, false)
    ensures r.hooks.lastDeps != Deps(r.hooks.activeCategory, r.projects.ref) && r.hooks.filtered.ref < r.hooks.nextRef
            && (r.hooks.activeCategory != AllCategory || r.projects.ref != r.hooks.filtered.ref)
            ==> c.rerender && c.hooks.filtered.items == FilterProjects(r.projects.items, r.hooks.activeCategory)
  {
    var h := r.hooks;
    var deps := Deps(h.activeCategory, r.projects.ref);
    if h.lastDeps == deps then Commit(h, false)
    else if h.activeCategory == AllCategory then
      SetFiltered(h.(lastDeps := deps), r.projects)
    else
      var next := ArrayRef(h.nextRef, FilterProjects(r.projects.items, h.activeCategory));
      SetFiltered(h.(lastDeps := deps, nextRef := h.nextRef + 1), next)
  }

  /** One render with its effect. */
  function Cycle(h: Hooks, src: PropSource): Commit {
    Effect(Render(h, src))
  }

  /**
   The first render: `useState("All")` and `useState(projects)` take the array
   this render evaluated, so the effect's `setFilteredProjects(projects)` is
   skipped and the component settles at once.
   */
  function Mount(src: PropSource, nextRef: nat): (c: Commit)
    requires src.Passed? ==> src.parent.ref < nextRef
    ensures !c.rerender && WellFormed(c.hooks)
    ensures c.hooks.activeCategory == AllCategory && NoPendingClick(c.hooks)
    ensures src.Defaulted? ==> c.hooks.filtered.items == src.items
    ensures src.Passed? ==> c.hooks.filtered == src.parent && Agrees(c.hooks, src.parent)
  {
    var r := Render(Hooks(AllCategory, ArrayRef(0, []), NotYetRun, nextRef), src);
    Effect(Rendered(r.hooks.(filtered := r.projects), r.projects))
  }

  /**
   A tab's `onClick`: `setActiveCategory(category)`. The render it schedules is
   committed with the stored list of the previous category; only the effect
   after it replaces the list.
   */
  function Click(h: Hooks, category: string): (c: Commit)
    ensures c.rerender <==> category != h.activeCategory
    ensures c.hooks.activeCategory == category
    ensures c.hooks.filtered == h.filtered && c.hooks.lastDeps == h.lastDeps && c.hooks.nextRef == h.nextRef
  {
    if category == h.activeCategory then Commit(h, false) else Commit(h.(activeCategory := category), true)
  }

  /** Render cycles run while each one schedules another, for at most `fuel` of them. */
  function Settle(h: Hooks, src: PropSource, fuel: nat): Commit
    decreases fuel
  {
    var c := Cycle(h, src);
    if !c.rerender || fuel == 0 then c else Settle(c.hooks, src, fuel - 1)
  }

  /** As written: with the prop defaulted, every render cycle schedules the next one. */
  lemma DefaultedPropAlwaysRerenders(h: Hooks, items: seq<Project>)
    requires WellFormed(h)
    ensures Cycle(h, Defaulted(items)).rerender
    ensures WellFormed(Cycle(h, Defaulted(items)).hooks)
  {
  }

  /** As written: with the prop defaulted, no number of render cycles reaches a fixed point. */
  lemma {:induction false} DefaultedPropNeverSettles(h: Hooks, items: seq<Project>, fuel: nat)
    requires WellFormed(h)
    ensures Settle(h, Defaulted(items), fuel).rerender
    decreases fuel
  {
    DefaultedPropAlwaysRerenders(h, items);
    if fuel > 0 {
      DefaultedPropNeverSettles(Cycle(h, Defaulted(items)).hooks, items, fuel - 1);
    }
  }

  /**
   As written: the component mounted without a `projects` prop
   settles, but a click on any other tab starts render cycles that never end.
   */
  lemma ClickWithDefaultedPropLoops(items: seq<Project>, category: string, fuel: nat)
    requires category != AllCategory
    ensures !Mount(Defaulted(items), 0).rerender
    ensures Click(Mount(Defaulted(items), 0).hooks, category).rerender
    ensures Settle(Click(Mount(Defaulted(items), 0).hooks, category).hooks, Defaulted(items), fuel).rerender
  {
    DefaultedPropNeverSettles(Click(Mount(Defaulted(items), 0).hooks, category).hooks, items, fuel);
  }

  /**
   Corrected: with an array of stable identity one render cycle stores the
   filter of `a` by the active category, and the next cycle changes nothing.
   */
  lemma StablePropSettles(h: Hooks, a: ArrayRef)
    requires WellFormed(h) && Existing(h, a) && Agrees(h, a)
    ensures Cycle(h, Passed(a)).hooks.activeCategory == h.activeCategory
    ensures Cycle(h, Passed(a)).hooks.filtered.items == FilterProjects(a.items, h.activeCategory)
    ensures !Cycle(Cycle(h, Passed(a)).hooks, Passed(a)).rerender
    ensures Cycle(Cycle(h, Passed(a)).hooks, Passed(a)).hooks == Cycle(h, Passed(a)).hooks
    ensures WellFormed(Cycle(h, Passed(a)).hooks) && Existing(Cycle(h, Passed(a)).hooks, a)
    ensures Agrees(Cycle(h, Passed(a)).hooks, a)
  {
  }

  /** The list a view shows, read off the hooks and the array the last render saw. */
  function ViewOf(h: Hooks, a: ArrayRef): (v: View)
    ensures v.projects == a.items && v.activeCategory == h.activeCategory && v.filteredProjects == h.filtered.items
  {
    View(a.items, h.activeCategory, h.filtered.items)
  }

  /**
   Corrected: a tab click followed by one render cycle, with a stable array,
   shows what `CategoryFilter.Step` computes for the click.
   */
  lemma StableClickMatchesStep(h: Hooks, a: ArrayRef, category: string)
    requires WellFormed(h) && Existing(h, a) && Agrees(h, a) && NoPendingClick(h)
    ensures ViewOf(Cycle(Click(h, category).hooks, Passed(a)).hooks, a)
         == Step(ViewOf(h, a), SelectCategory(category))
  {
  }

  /**
   Corrected: a new parent array followed by one render cycle shows what
   `CategoryFilter.Step` computes for the new prop.
   */
  lemma StableNewPropMatchesStep(h: Hooks, a: ArrayRef, b: ArrayRef)
    requires WellFormed(h) && Existing(h, b) && Agrees(h, b)
    ensures ViewOf(Cycle(h, Passed(b)).hooks, b) == Step(ViewOf(h, a), ReceiveProjects(b.items))
  {
  }
}

=== FILE: seqs.dfy ===
/**
 The JavaScript array operations the portfolio's list logic is built from:
 `Array.prototype.slice` with its index clamping, `Array.prototype.filter`,
 and the first-appearance order in which a `Set` built from an array keeps
 its elements. Each comes with the reference notion it is proved against.
 */
module JsArray {

  /** No element occurs twice. */
  predicate NoDuplicates<T(==)>(s: seq<T>) {
    forall i, j :: 0 <= i < j < |s| ==> s[i] != s[j]
  }

  /** `a` is `b` with some elements deleted, the rest kept in order. */
  predicate IsSubsequence<T(==)>(a: seq<T>, b: seq<T>)
    decreases |b|
  {
    && |a| <= |b|
    && (|a| == 0
        || (a[0] == b[0] && IsSubsequence(a[1..], b[1..]))
        || IsSubsequence(a, b[1..]))
  }

  /** Every sequence is a subsequence of itself. */
  lemma {:induction false} SubsequenceOfItself<T>(s: seq<T>)
    ensures IsSubsequence(s, s)
  {
    if |s| > 0 {
      SubsequenceOfItself(s[1..]);
    }
  }

  /** The position of the first occurrence of `x` in `s`. */
  function FirstIndex<T(==)>(s: seq<T>, x: T): (r: nat)
    requires x in s
    ensures r < |s| && s[r] == x
    ensures x !in s[..r]
  {
    if s[0] == x then 0
    else
      var k := FirstIndex(s[1..], x);
      assert s[..k + 1] == [s[0]] + s[1..][..k];
      1 + k
  }

  /** A first occurrence inside a prefix is the first occurrence in the whole sequence. */
  lemma FirstIndexOfPrefix<T>(s: seq<T>, k: nat, x: T)
    requires k <= |s| && x in s[..k]
    ensures FirstIndex(s, x) == FirstIndex(s[..k], x) < k
  {
    var a := FirstIndex(s, x);
    var b := FirstIndex(s[..k], x);
    assert s[..k][..b] == s[..b];
  }

  /**
   How `slice` resolves one of its arguments against an array of length
   `len`: a negative index counts back from the end, and the outcome is
   clamped to `0 .. len` instead of raising an error.
   */
  function RelativeIndex(i: int, len: nat): (r: nat)
    ensures r <= len
    ensures 0 <= i <= len ==> r == i
    ensures i > len ==> r == len
    ensures i < 0 <= len + i ==> r == len + i
    ensures len + i < 0 ==> r == 0
  {
    if i < 0 then (if len + i < 0 then 0 else len + i)
    else if i > len then len
    else i
  }

  /** `i`, or `n` when `i` lies past the end of a list of length `n`. */
  function AtMost(i: nat, n: nat): (r: nat)
    ensures r <= i && r <= n
    ensures r == i || r == n
  {
    if i <= n then i else n
  }

  /** `Array.prototype.slice(start, end)`; an empty array when the resolved end does not exceed the resolved start. */
  function Slice<T>(s: seq<T>, start: int, end: int): (r: seq<T>)
    ensures |r| <= |s|
    ensures 0 <= start <= end ==> AtMost(start, |s|) <= AtMost(end, |s|)
    ensures 0 <= start <= end ==> r == s[AtMost(start, |s|)..AtMost(end, |s|)]
    ensures 0 <= end <= start ==> r == []
    ensures 0 <= start <= end ==> |r| <= end - start
    ensures 0 <= start < |s| && start < end ==> |r| > 0
    ensures 0 <= start ==> start + |r| <= |s| || r == []
    ensures 0 <= start <= end <= |s| ==> r == s[start..end]
    ensures 0 <= start ==> forall i :: 0 <= i < |r| ==> r[i] == s[start + i]
  {
    var lo := RelativeIndex(start, |s|);
    var hi := RelativeIndex(end, |s|);
    if lo < hi then s[lo..hi] else []
  }

  /**
   Negative bounds count back from the end of the array, and bounds before
   its start act as 0: together with the two non-negative cases in `Slice`'s
   contract this fixes `slice` for every pair of integer bounds.
   */
  lemma SliceNegativeIndices<T>(s: seq<T>, start: int, end: int)
    ensures start < 0 <= |s| + start ==> Slice(s, start, end) == Slice(s, |s| + start, end)
    ensures |s| + start < 0 ==> Slice(s, start, end) == Slice(s, 0, end)
    ensures end < 0 <= |s| + end ==> Slice(s, start, end) == Slice(s, start, |s| + end)
    ensures |s| + end < 0 ==> Slice(s, start, end) == []
  {
  }

  /** Two adjacent slices with non-negative bounds make up the slice that spans both. */
  lemma SliceAppend<T>(s: seq<T>, a: int, b: int, c: int)
    requires 0 <= a <= b <= c
    ensures Slice(s, a, b) + Slice(s, b, c) == Slice(s, a, c)
  {
    var la, lb, lc := RelativeIndex(a, |s|), RelativeIndex(b, |s|), RelativeIndex(c, |s|);
    assert la <= lb <= lc;
    assert s[la..lb] + s[lb..lc] == s[la..lc];
  }

  /** `Array.prototype.filter`: the elements that pass `keep`, in their original order. */
  function Filter<T(==,!new)>(s: seq<T>, keep: T -> bool): (r: seq<T>)
    ensures |r| <= |s|
    ensures IsSubsequence(r, s)
    ensures forall x :: multiset(r)[x] == if keep(x) then multiset(s)[x] else 0
    ensures forall x :: x in r <==> x in s && keep(x)
  {
    if |s| == 0 then []
    else
      var rest := Filter(s[1..], keep);
      assert s == [s[0]] + s[1..];
      if keep(s[0]) then
        var r := [s[0]] + rest;
        assert r[1..] == rest;
        r
      else rest
  }

  /** Filtering an already filtered sequence with the same test changes nothing. */
  lemma {:induction false} FilterIdempotent<T(!new)>(s: seq<T>, keep: T -> bool)
    ensures Filter(Filter(s, keep), keep) == Filter(s, keep)
  {
    if |s| > 0 {
      FilterIdempotent(s[1..], keep);
      if keep(s[0]) {
        var r := Filter(s, keep);
        assert r[0] == s[0] && r[1..] == Filter(s[1..], keep);
      }
    }
  }

  /** A filter every element passes is the identity. */
  lemma {:induction false} FilterKeepingAll<T(!new)>(s: seq<T>, keep: T -> bool)
    requires forall i :: 0 <= i < |s| ==> keep(s[i])
    ensures Filter(s, keep) == s
  {
    if |s| > 0 {
      FilterKeepingAll(s[1..], keep);
      assert s == [s[0]] + s[1..];
    }
  }

  /**
   The elements of `s` without repetitions, in the order a `Set` built
   from `s` iterates them: each element at its first appearance.
   */
  function Distinct<T(==,!new)>(s: seq<T>): (r: seq<T>)
    ensures |r| <= |s|
    ensures forall x :: x in r <==> x in s
    ensures NoDuplicates(r)
  {
    if |s| == 0 then []
    else
      var init := s[..|s| - 1];
      var u := Distinct(init);
      assert s == init + [s[|s| - 1]];
      if s[|s| - 1] in u then u else u + [s[|s| - 1]]
  }

  /** Appending an element already present leaves `Distinct` unchanged. */
  lemma DistinctSnocSeen<T(!new)>(s: seq<T>, x: T)
    requires x in s
    ensures Distinct(s + [x]) == Distinct(s)
  {
    assert (s + [x])[..|s|] == s;
  }

  /** Appending a new element appends it to `Distinct`. */
  lemma DistinctSnocNew<T(!new)>(s: seq<T>, x: T)
    requires x !in s
    ensures Distinct(s + [x]) == Distinct(s) + [x]
  {
    assert (s + [x])[..|s|] == s;
  }

  /** `Distinct` lists elements in the order of their first appearance in `s`. */
  lemma {:induction false} DistinctFirstAppearanceOrder<T(!new)>(s: seq<T>, i: int, j: int)
    requires 0 <= i < j < |Distinct(s)|
    ensures FirstIndex(s, Distinct(s)[i]) < FirstIndex(s, Distinct(s)[j])
  {
    var n := |s|;
    var init := s[..n - 1];
    var last := s[n - 1];
    var u := Distinct(init);
    assert s[..n - 1] == init;
    if j < |u| {
      assert Distinct(s)[i] == u[i] && Distinct(s)[j] == u[j];
      DistinctFirstAppearanceOrder(init, i, j);
      FirstIndexOfPrefix(s, n - 1, u[i]);
      FirstIndexOfPrefix(s, n - 1, u[j]);
    } else {
      assert last !in init;
      assert Distinct(s)[j] == last && Distinct(s)[i] == u[i];
      FirstIndexOfPrefix(s, n - 1, u[i]);
      assert FirstIndex(s, last) == n - 1;
    }
  }
}

=== FILE: skill_tabs.dfy ===
/**
 The skill tabs of `src/components/sections/SkillsSection.tsx`: five tab
 triggers ("all" and one per skill category) set `activeTab`, and the grid
 shows the skills that pass a filter on it.
 */
module SkillTabs {
  import opened JsArray

  /** The closed union `"backend" | "frontend" | "database" | "other"`. */
  datatype SkillCategory = Backend | Frontend | Database | Other

  /** The fields of a skill the filter reads, plus its name and level. */
  datatype Skill = Skill(name: string, level: int, category: SkillCategory)

  /** The five tab triggers, by the value each passes to `setActiveTab`. */
  datatype Tab = AllSkills | CategoryTab(category: SkillCategory)

  /** The component's state together with its `skills` prop. */
  datatype SkillsView = SkillsView(skills: seq<Skill>, activeTab: string)

  /** The value that switches the filter off. */
  const AllTab: string := "all"

  /** The string a category has in the source. */
  function CategoryValue(c: SkillCategory): string {
    match c
    case Backend => "backend"
    case Frontend => "frontend"
    case Database => "database"
    case Other => "other"
  }

  /** The `value` of a tab trigger, which its click handler stores in `activeTab`. */
  function TabValue(t: Tab): (r: string)
    ensures t == AllSkills <==> r == AllTab
  {
    match t
    case AllSkills => AllTab
    case CategoryTab(c) => CategoryValue(c)
  }

  /** Distinct tabs store distinct values, so `activeTab` tells which tab was clicked. */
  lemma TabValueInjective(t: Tab, u: Tab)
    ensures TabValue(t) == TabValue(u) <==> t == u
  {
  }

  /** The filter test: every skill passes under "all", otherwise the category must match. */
  function ShowsSkill(activeTab: string): (keep: Skill -> bool)
    ensures forall t: Tab, s: Skill :: TabValue(t) == activeTab ==>
              (keep(s) <==> t == AllSkills || t == CategoryTab(s.category))
  {
    (skill: Skill) => activeTab == AllTab || CategoryValue(skill.category) == activeTab
  }

  /** `filteredSkills`: the skills the active tab shows, in their original order. */
  function FilteredSkills(skills: seq<Skill>, activeTab: string): (r: seq<Skill>)
    ensures |r| <= |skills|
    ensures forall s :: s in r ==> s in skills
    ensures IsSubsequence(r, skills)
    ensures activeTab == AllTab ==> r == skills
    ensures activeTab != AllTab ==>
              forall s :: multiset(r)[s] == if CategoryValue(s.category) == activeTab then multiset(skills)[s] else 0
  {
    if activeTab == AllTab then
      FilterKeepingAll(skills, ShowsSkill(activeTab));
      Filter(skills, ShowsSkill(activeTab))
    else Filter(skills, ShowsSkill(activeTab))
  }

  /** A category tab shows exactly the skills of that category, each as often as in the list. */
  lemma CategoryTabShowsItsSkills(skills: seq<Skill>, c: SkillCategory)
    ensures forall s :: s in FilteredSkills(skills, TabValue(CategoryTab(c))) <==> s in skills && s.category == c
    ensures forall s :: multiset(FilteredSkills(skills, TabValue(CategoryTab(c))))[s]
                       == if s.category == c then multiset(skills)[s] else 0
  {
  }

  /** A value no trigger produces shows nothing. */
  lemma UnknownTabShowsNothing(skills: seq<Skill>, activeTab: string)
    requires forall t: Tab :: TabValue(t) != activeTab
    ensures FilteredSkills(skills, activeTab) == []
  {
    assert activeTab != TabValue(AllSkills);
    forall c: SkillCategory
      ensures CategoryValue(c) != activeTab
    {
      assert TabValue(CategoryTab(c)) != activeTab;
    }
  }

  /** The four category tabs together show every skill exactly once. */
  lemma CategoryTabsPartitionSkills(skills: seq<Skill>)
    ensures multiset(FilteredSkills(skills, "backend"))
          + multiset(FilteredSkills(skills, "frontend"))
          + multiset(FilteredSkills(skills, "database"))
          + multiset(FilteredSkills(skills, "other"))
          == multiset(skills)
  {
    var b := FilteredSkills(skills, "backend");
    var f := FilteredSkills(skills, "frontend");
    var d := FilteredSkills(skills, "database");
    var o := FilteredSkills(skills, "other");
    forall s
      ensures (multiset(b) + multiset(f) + multiset(d) + multiset(o))[s] == multiset(skills)[s]
    {
      match s.category
      case Backend =>
      case Frontend =>
      case Database =>
      case Other =>
    }
  }

  /** `useState("all")`. */
  function InitialSkillsView(skills: seq<Skill>): (r: SkillsView)
    ensures r.skills == skills
    ensures r.activeTab == AllTab
    ensures FilteredSkills(r.skills, r.activeTab) == skills
  {
    SkillsView(skills, AllTab)
  }

  /** Clicking a tab trigger stores its value and touches nothing else. */
  function ClickTab(v: SkillsView, t: Tab): (r: SkillsView)
    ensures r.skills == v.skills
    ensures r.activeTab == TabValue(t)
    ensures t == AllSkills ==> FilteredSkills(r.skills, r.activeTab) == v.skills
  {
    v.(activeTab := TabValue(t))
  }
}
